=== FILE: README.md ===
# Orbiting-pair arcade game: a Dafny model of the frame logic

The game (`Game.cpp`) is a small real-time arcade demo. Two player circles
orbit the screen centre, always opposite each other, and Space reverses their
direction. A single square obstacle ("quad") rises from the bottom of the
screen, either straight up or diagonally, and is respawned once it leaves the
screen. A quad may be lethal (drawn red) or benign (drawn white). When a
circle touches a lethal quad the game is over until 'R' is pressed. When it
touches a benign quad, the quad respawns.

This project models the integer and control-flow core of that program as
immutable records and pure step functions:

- `geometry.dfy` (`Geometry`): the corner-containment collision test
  `are_objects_colliding`.
- `raster.dfy` (`Raster`): the screen, the row-major pixel buffer
  (`seq<seq<int>>`, `buf[row][col]`), the colours, clearing, and the clipped
  square fill `draw_quad`, written as the same nested loop.
- `orbit.dfy` (`Orbit`): the pair's direction flag, its signed angle step and
  the angle normalisation of `compute_location`.
- `obstacle.dfy` (`Obstacle`): quad motion, the three-sided off-screen test,
  respawn, and the quad's own draw.
- `game.dfy` (`Game`): the world (the program's globals plus the static
  cooldown timer of `act`), `initialize`, `act`, the state part of `draw`
  with its collision resolution, the buffer part of `draw`, and runs of
  ticks (one `act` followed by one `draw`).

Host inputs are parameters:

- The keys are `Keys(escape, restart, space)`, and `act` returns a quit flag.
- `dt` and the cooldown timer are `real`.
- The frame-rate gate is a boolean `frameDue`.
- The circles' collision-box corners are opaque `Point`s, because the
  program computes them with `sin`/`cos`.
- Each `rand() & 1` is a boolean: `Spawn(vertical, fromLeft)` holds the two
  flips a respawn consumes, and `Roll(lethal, spawn)` adds the lethality flip.
- `SCREEN_WIDTH` and `SCREEN_HEIGHT` come from `Engine.h`, which is not part
  of this model. They are the fields of a `Screen` parameter, and the
  properties that need a wide screen require a width of at least 160.

Behaviours of the code worth knowing:

- The angle is not kept in [0, 360). A negative angle is reflected to
  `360 - t`, so the angle ranges over [0, 360 + degreePerFrame].
- The toggle cooldown does not grow while Space is held down. Holding Space
  therefore flips the direction at most once (`Game.HeldSpaceTogglesOnce`,
  `Game.HeldSpaceCannotToggle`).
- The timer starts at 0, so a press before 0.1 s of unpressed time has
  passed does nothing.
- 'R' respawns the quad with exactly its current lethality.
- `Game.Run` keeps applying ticks after Escape has scheduled a quit, while
  the host stops after that call. Run therefore covers more tick sequences
  than can really happen. Its lemmas are safety properties over every
  sequence, so they hold for the real runs too.

## Model

| member | source | states |
|---|---|---|
| Geometry.Colliding | Game.cpp:33-36 | holds exactly when the second box's corner lies in the first box's closed square [fx, fx+fs] x [fy, fy+fs], or the first box's corner lies in the second box's closed square |
| Geometry.CollidingSymmetric | Game.cpp:33-36 | the collision verdict does not depend on which box is passed first |
| Geometry.SameCornerCollides | Game.cpp:33-36 | two boxes with the same top-left corner collide whenever the first size is non-negative |
| Geometry.CollidingImpliesOverlap | Game.cpp:33-36 | for non-negative sizes a reported collision means the two closed squares really share a point |
| Geometry.OverlapWithoutCollision | Game.cpp:33-36 | the test is not a full overlap test: two crossing squares, neither of whose corners lies in the other, are not reported |
| Raster.Clear | Game.cpp:232 | the cleared buffer has the screen's shape and every cell is 0 (black) |
| Raster.DrawQuad | Game.cpp:43-52 | the buffer keeps its shape; exactly the on-screen cells with y <= row < y+s and x <= col < x+s get the colour, and every other cell keeps its old value |
| Orbit.ChangeDirection | Game.cpp:83-86 | the direction flag is negated and no other field changes |
| Orbit.ChangeDirectionInvolution | Game.cpp:83-86 | reversing twice gives back the original pair |
| Orbit.SignedStep | Game.cpp:90 | the step is +degreePerFrame when turning left and -degreePerFrame otherwise |
| Orbit.ChangeDirectionNegatesStep | Game.cpp:83-90 | after a direction change the angle step has the same size and the opposite sign |
| Orbit.Normalize | Game.cpp:92-95 | the result is never negative; a value above 360 becomes a smaller value below 360 with the same residue mod 360; a value in [0, 360] is kept; a negative value t becomes 360 - t |
| Orbit.NormalizeAbove360Iff | Game.cpp:92-95 | a normalised angle exceeds 360 exactly when the stepped angle was negative |
| Orbit.NormalizeReflectsNegative | Game.cpp:92-95 | below zero the angle is mirrored, not wrapped: the result is congruent to -t mod 360 |
| Orbit.Advance | Game.cpp:90-95 | only the angle changes; the stepped angle is reduced mod 360 above 360, kept in [0, 360], and reflected to 360 - t below 0 |
| Orbit.AdvancePreservesRange | Game.cpp:90-95 | with 0 <= degreePerFrame <= 360, one frame keeps 0 <= totalDegree <= 360 + degreePerFrame |
| Orbit.AdvanceNPreservesRange | Game.cpp:103-108 | the pair on its own, with no toggles in between: any number of frames keeps that angle range and leaves direction, step, radius and size unchanged |
| Obstacle.NeedToDestroy | Game.cpp:130-133 | holds exactly when the bottom edge is above the top (y + size < 0), the right edge is left of the screen (x + size < 0) or the left edge is right of it (x > width); the bottom side is not checked, so a quad horizontally on screen with y >= 0 is never destroyed, however far below |
| Obstacle.Move | Game.cpp:135-139 | x grows by dx, y shrinks by dy, and no other field changes |
| Obstacle.Instantiate | Game.cpp:151-174 | after a respawn: y is the screen height, the lethality is the argument, the size is unchanged; the velocity is (0,4), (4,3) or (-4,3); x is width/2 - 80, width/2 + 80, -size or width; dx is -4 exactly on a diagonal spawn at the right edge, and dx is 0 exactly on a vertical spawn |
| Obstacle.SpawnPoints | Game.cpp:151-174 | each coin pair yields its own spawn point, and on any screen (width >= 0, size > 0) different coins give different quads |
| Obstacle.DiagonalSpawnMovesInward | Game.cpp:161-170 | a diagonal spawn left of the screen moves right and one at the right edge moves left |
| Obstacle.InstantiateNotDestroyed | Game.cpp:130-174 | on a screen at least 160 pixels wide a freshly respawned quad is not due for destruction |
| Obstacle.Advance | Game.cpp:141-146 | the quad moves by (dx, -dy); if the moved quad is off the screen it is re-instantiated from the moved quad with the rolled lethality and spawn coins (so at the bottom), otherwise it stays where it moved to; the size never changes |
| Obstacle.AdvanceStaysOnScreen | Game.cpp:130-146 | after its own update the quad is never due for destruction |
| Obstacle.ColorOf | Game.cpp:21-27 | the quad is drawn red exactly when lethal and white exactly when benign |
| Obstacle.Draw | Game.cpp:141-149 | the quad is advanced and then exactly its on-screen square is painted in its colour, with the rest of the buffer unchanged |
| Obstacle.MoveNPosition | Game.cpp:135-139 | n moves shift the corner by n times the velocity and change nothing else |
| Obstacle.SpawnedObstacleLeaves | Game.cpp:130-174 | every respawned quad has passed the top edge (y + size < 0), and so is due for destruction, after (height + size) / 3 + 1 moves |
| Game.Initialize | Game.cpp:180-187 | the game starts running with the timer at 0, the initial pair, and the quad that instantiate makes from the fresh 30-pixel quad with the rolled lethality and spawn coins (so at the bottom) |
| Game.InitializeEstablishesInv | Game.cpp:180-187 | the initial world satisfies the game invariant |
| Game.Act | Game.cpp:191-218 | Escape sets the quit flag; 'R' respawns with the current lethality and clears game over; a finished game is left unchanged; Space below the 0.1 s cooldown changes nothing; Space at or above it toggles the direction and zeroes the timer; no Space adds dt to the timer |
| Game.Punish | Game.cpp:239-242 | a lethal hit ends the game and leaves the quad; a benign hit respawns the quad and leaves the game-over flag |
| Game.Resolve | Game.cpp:237-250 | with no hit nothing changes; a hit by either circle on a lethal quad ends the game; a hit on a benign quad re-instantiates it with the rolled lethality and spawn coins, at the bottom; the pair and timer are untouched |
| Game.FirstHitShadowsSecond | Game.cpp:237-250 | when the first circle hits, the second circle's position does not affect the outcome |
| Game.Step | Game.cpp:222-250 | a finished game or a frame the gate holds back changes nothing; otherwise the pair turns one step and the timer is kept; with no hit the quad is the obstacle's own update (moved, or respawned if it left the screen) and the game goes on; with a hit the game ends exactly when that updated quad is lethal, a lethal quad stays where it moved, and a benign one is re-instantiated with the hit roll |
| Game.LethalHitEndsGame | Game.cpp:224-250 | a rendered hit on a lethal quad ends the game, which then stays exactly as it is through any ticks without 'R' |
| Game.BenignHitRespawns | Game.cpp:237-250 | a rendered hit on a benign quad keeps the game running and respawns the quad on screen at the bottom |
| Game.Draw | Game.cpp:222-235 | a frame that does not render leaves the buffer as it was; a rendered frame shows the moved quad's square in its colour on black |
| Game.EndedUntilRestart | Game.cpp:196-225 | a finished game stays exactly as it is through any ticks that do not press 'R' |
| Game.HeldSpaceCannotToggle | Game.cpp:205-217 | while Space is held with the timer below 0.1 s, neither the direction nor the timer ever changes |
| Game.HeldSpaceTogglesOnce | Game.cpp:205-217 | holding Space in a running game with the cooldown elapsed flips the direction exactly once and leaves the timer at 0 |
| Game.TickPreservesInv | Game.cpp:191-250 | one act-and-draw tick with dt >= 0 keeps the invariant: the angle stays in range, the quad keeps size 30 and a spawn velocity, and the timer stays non-negative |
| Game.RunPreservesInv | Game.cpp:191-250 | every run of ticks with non-negative dt keeps the invariant |

## Left out

- `draw_circle` and `deg_to_rad` are not modelled, because they are double-precision trigonometry.
- The `fx, fy, sx, sy` position formulas of `compute_location` are not modelled, because they use `sin` and `cos`. The circle corners are inputs to the collision step instead.
- Game.Draw: the rendered buffer holds only the black background and the quad. The two green discs that `draw_circle` paints before the quad are not drawn.
- The `std::chrono` frame-rate gate and `last_frame_time` are not modelled. They are replaced by the boolean `frameDue`.
- `rand`, `srand` and `time` are not modelled. Every `rand() & 1` is an explicit boolean input.
- `is_key_pressed` and `schedule_quit_game` are host calls. The model uses key booleans and a returned quit flag.
- `finalize` is not modelled, because it does nothing.
- `Engine.h` is not part of this model. `SCREEN_WIDTH` and `SCREEN_HEIGHT` are a `Screen` parameter, and the `buffer` global is a `Buffer` value passed in and returned.
- 32-bit `int` overflow is not modelled. Coordinates, sizes and angles stay within a few thousand in every reachable state, so wrap-around never occurs.
- The screen is assumed to have positive dimensions, as the host's constants do. For a negative odd width, Dafny's `/` would differ from C's truncating `SCREEN_WIDTH / 2`; no such screen exists.
- The cooldown timer is a `real`, not a `float`. Its rounding is not modelled, and `0.1f` is taken as exactly 0.1.

=== FILE: game.dfy ===
/** The game's frame controller: the world state the global variables of
    the program hold, the input step (`act`), the render step (`draw`) with
    its collision resolution, and whole runs of frames. Keys, elapsed time,
    the frame-rate gate, the circle positions (computed with sin/cos) and
    every coin flip are inputs. */
module Game {
  import opened Raster
  import opened Geometry
  import opened Orbit
  import opened Obstacle

  /** A screen position: the top-left corner of a circle's collision box. */
  datatype Point = Point(x: int, y: int)

  /** The keys `act` polls: Escape, 'R' and Space. */
  datatype Keys = Keys(escape: bool, restart: bool, space: bool)

  /** Everything the program keeps between calls: the orbiting pair, the
      obstacle, the game-over flag and the toggle cooldown timer (a static
      local of `act`, in seconds). */
  datatype World = World(pair: Circles, quad: Quad, isGameEnded: bool, cooldown: real)

  /** The outcome of `act`: the new world and whether a quit was scheduled. */
  datatype ActResult = ActResult(world: World, quit: bool)

  /** Minimum time in seconds between two direction toggles. */
  const CooldownSeconds: real := 0.1

  /** `initialize`: seed the obstacle with a random lethality and clear the
      game-over flag. The pair and the timer keep their static initial
      values. */
  function Initialize(sc: Screen, roll: Roll): (w: World)
    ensures !w.isGameEnded && w.cooldown == 0.0 && w.pair == Orbit.Initial
    ensures w.quad == Instantiate(Blank, sc, roll.lethal, roll.spawn)
    ensures w.quad.y == sc.height && w.quad.isEnemy == roll.lethal && w.quad.size == QuadSize
  {
    World(Orbit.Initial, Instantiate(Blank, sc, roll.lethal, roll.spawn), false, 0.0)
  }

  /** The game is still running after the restart key has been handled. */
  predicate ActiveAfterRestart(w: World, keys: Keys)
  {
    keys.restart || !w.isGameEnded
  }

  /** `act(dt)`: Escape schedules a quit; 'R' respawns the obstacle with its
      current lethality and clears game over, unconditionally; a finished
      game ignores the rest; Space toggles the direction only when the
      cooldown has reached 0.1 s, resetting it, and otherwise does nothing at
      all; without Space the cooldown grows by `dt`. */
  function Act(w: World, sc: Screen, keys: Keys, dt: real, spawn: Spawn): (r: ActResult)
    ensures r.quit == keys.escape
    ensures keys.restart ==> !r.world.isGameEnded && r.world.quad == Instantiate(w.quad, sc, w.quad.isEnemy, spawn)
    ensures !keys.restart ==> r.world.quad == w.quad && r.world.isGameEnded == w.isGameEnded
    ensures !ActiveAfterRestart(w, keys) ==> r.world == w
    ensures ActiveAfterRestart(w, keys) && keys.space && w.cooldown < CooldownSeconds ==>
              r.world.pair == w.pair && r.world.cooldown == w.cooldown
    ensures ActiveAfterRestart(w, keys) && keys.space && w.cooldown >= CooldownSeconds ==>
              r.world.pair == ChangeDirection(w.pair) && r.world.cooldown == 0.0
    ensures ActiveAfterRestart(w, keys) && !keys.space ==>
              r.world.pair == w.pair && r.world.cooldown == w.cooldown + dt
  {
    var w1 :=
      if keys.restart then w.(quad := Instantiate(w.quad, sc, w.quad.isEnemy, spawn), isGameEnded := false)
      else w;
    var w2 :=
      if w1.isGameEnded then w1
      else if keys.space then
        if w1.cooldown < CooldownSeconds then w1
        else w1.(pair := ChangeDirection(w1.pair), cooldown := 0.0)
      else w1.(cooldown := w1.cooldown + dt);
    ActResult(w2, keys.escape)
  }

  /** The circle whose collision box has its corner at `p` touches the
      obstacle, by the game's corner-containment test. */
  predicate Hits(w: World, p: Point)
  {
    Colliding(p.x, p.y, w.pair.size, w.quad.x, w.quad.y, w.quad.size)
  }

  /** The consequence of a hit: a lethal obstacle ends the game, a benign
      one is respawned with a random lethality. */
  function Punish(w: World, sc: Screen, roll: Roll): (r: World)
    ensures r.pair == w.pair && r.cooldown == w.cooldown
    ensures w.quad.isEnemy ==> r.isGameEnded && r.quad == w.quad
    ensures !w.quad.isEnemy ==> r.isGameEnded == w.isGameEnded && r.quad == Instantiate(w.quad, sc, roll.lethal, roll.spawn)
  {
    if !w.quad.isEnemy then w.(quad := Instantiate(w.quad, sc, roll.lethal, roll.spawn))
    else w.(isGameEnded := true)
  }

  /** The collision tail of `draw`: the first circle is checked first, and
      the second only when the first misses. */
  function Resolve(w: World, sc: Screen, first: Point, second: Point, roll: Roll): (r: World)
    ensures !Hits(w, first) && !Hits(w, second) ==> r == w
    ensures (Hits(w, first) || Hits(w, second)) && w.quad.isEnemy ==> r.isGameEnded && r.quad == w.quad
    ensures (Hits(w, first) || Hits(w, second)) && !w.quad.isEnemy ==>
              r.isGameEnded == w.isGameEnded && r.quad == Instantiate(w.quad, sc, roll.lethal, roll.spawn)
    ensures (Hits(w, first) || Hits(w, second)) && !w.quad.isEnemy ==>
              r.quad.y == sc.height && r.quad.isEnemy == roll.lethal
    ensures r.pair == w.pair && r.cooldown == w.cooldown
  {
    if Hits(w, first) then Punish(w, sc, roll)
    else if Hits(w, second) then Punish(w, sc, roll)
    else w
  }

  /** When the first circle hits, the second circle plays no part. */
  lemma FirstHitShadowsSecond(w: World, sc: Screen, first: Point, s1: Point, s2: Point, roll: Roll)
    requires Hits(w, first)
    ensures Resolve(w, sc, first, s1, roll) == Resolve(w, sc, first, s2, roll)
  {
  }

  /** The world after the pair has turned and the obstacle has made its own
      move, before collisions are resolved. */
  function Moved(w: World, sc: Screen, moveRoll: Roll): World
  {
    w.(pair := Orbit.Advance(w.pair), quad := Obstacle.Advance(w.quad, sc, moveRoll))
  }

  /** Whether `draw` gets past its two guards: the game is running and the
      frame-rate gate lets the frame through. */
  predicate Renders(w: World, frameDue: bool)
  {
    !w.isGameEnded && frameDue
  }

  /** The world part of `draw`: nothing happens unless the frame renders;
      then the pair turns, the obstacle moves (respawning if it left the
      screen) and the collision is resolved against the circle positions
      `first` and `second` of the turned pair. */
  function Step(w: World, sc: Screen, frameDue: bool, first: Point, second: Point, moveRoll: Roll, hitRoll: Roll): (r: World)
    ensures !Renders(w, frameDue) ==> r == w
    ensures Renders(w, frameDue) ==> r.pair == Orbit.Advance(w.pair) && r.cooldown == w.cooldown
    ensures Renders(w, frameDue) && r.isGameEnded ==> r.quad.isEnemy
    ensures Renders(w, frameDue) && !Hits(Moved(w, sc, moveRoll), first) && !Hits(Moved(w, sc, moveRoll), second) ==>
              r.quad == Obstacle.Advance(w.quad, sc, moveRoll) && !r.isGameEnded
    ensures Renders(w, frameDue) && (Hits(Moved(w, sc, moveRoll), first) || Hits(Moved(w, sc, moveRoll), second)) ==>
              (r.isGameEnded <==> Obstacle.Advance(w.quad, sc, moveRoll).isEnemy)
    ensures Renders(w, frameDue) && (Hits(Moved(w, sc, moveRoll), first) || Hits(Moved(w, sc, moveRoll), second)) ==>
              r.quad == (if Obstacle.Advance(w.quad, sc, moveRoll).isEnemy then Obstacle.Advance(w.quad, sc, moveRoll)
                         else Instantiate(Obstacle.Advance(w.quad, sc, moveRoll), sc, hitRoll.lethal, hitRoll.spawn))
  {
    if !Renders(w, frameDue) then w
    else Resolve(Moved(w, sc, moveRoll), sc, first, second, hitRoll)
  }

  /** A rendered frame in which either circle touches a lethal obstacle ends
      the game, and the game then stays over until 'R' is pressed. */
  lemma LethalHitEndsGame(w: World, sc: Screen, first: Point, second: Point, moveRoll: Roll, hitRoll: Roll, later: seq<Tick>)
    requires !w.isGameEnded
    requires Moved(w, sc, moveRoll).quad.isEnemy
    requires Hits(Moved(w, sc, moveRoll), first) || Hits(Moved(w, sc, moveRoll), second)
    requires NoRestart(later)
    ensures Step(w, sc, true, first, second, moveRoll, hitRoll).isGameEnded
    ensures Run(Step(w, sc, true, first, second, moveRoll, hitRoll), sc, later) == Step(w, sc, true, first, second, moveRoll, hitRoll)
  {
    EndedUntilRestart(Step(w, sc, true, first, second, moveRoll, hitRoll), sc, later);
  }

  /** A rendered frame in which a circle touches a benign obstacle respawns
      it at the bottom of the screen, on the screen, and the game goes on. */
  lemma BenignHitRespawns(w: World, sc: Screen, first: Point, second: Point, moveRoll: Roll, hitRoll: Roll)
    requires !w.isGameEnded && sc.width >= 2 * XRange && sc.height >= 0 && w.quad.size >= 0
    requires !Moved(w, sc, moveRoll).quad.isEnemy
    requires Hits(Moved(w, sc, moveRoll), first) || Hits(Moved(w, sc, moveRoll), second)
    ensures !Step(w, sc, true, first, second, moveRoll, hitRoll).isGameEnded
    ensures Step(w, sc, true, first, second, moveRoll, hitRoll).quad.y == sc.height
    ensures Step(w, sc, true, first, second, moveRoll, hitRoll).quad.isEnemy == hitRoll.lethal
    ensures !NeedToDestroy(Step(w, sc, true, first, second, moveRoll, hitRoll).quad, sc)
  {
    var m := Moved(w, sc, moveRoll);
    InstantiateNotDestroyed(m.quad, sc, hitRoll.lethal, hitRoll.spawn);
  }

  /** `draw`: the world as `Step` says, and the buffer. A frame that does not
      render leaves the buffer untouched; one that does clears it to black
      and paints the moved obstacle in its colour (the circles' discs are
      not painted, see the README). */
  method Draw(w: World, sc: Screen, frameDue: bool, first: Point, second: Point, moveRoll: Roll, hitRoll: Roll, buf: Buffer)
    returns (w': World, out: Buffer)
    requires ValidScreen(sc) && IsRaster(buf, sc)
    ensures w' == Step(w, sc, frameDue, first, second, moveRoll, hitRoll)
    ensures !Renders(w, frameDue) ==> out == buf
    ensures IsRaster(out, sc)
    ensures Renders(w, frameDue) ==>
              var q := Obstacle.Advance(w.quad, sc, moveRoll);
              forall row, col :: 0 <= row < sc.height && 0 <= col < sc.width ==>
                out[row][col] == (if InSquare(row, col, q.x, q.y, q.size) then ColorOf(q) else Black)
  {
    w' := Step(w, sc, frameDue, first, second, moveRoll, hitRoll);
    if !Renders(w, frameDue) {
      out := buf;
      return;
    }
    var q;
    q, out := Obstacle.Draw(w.quad, sc, moveRoll, Clear(sc));
  }

  /** One host tick: the keys and elapsed time for `act`, then the frame
      gate, circle positions and coin flips for `draw`. */
  datatype Tick = Tick(keys: Keys, dt: real, restartSpawn: Spawn, frameDue: bool,
                       first: Point, second: Point, moveRoll: Roll, hitRoll: Roll)

  /** One tick: `act` then the world part of `draw`. */
  function TickStep(w: World, sc: Screen, t: Tick): World
  {
    var a := Act(w, sc, t.keys, t.dt, t.restartSpawn).world;
    Step(a, sc, t.frameDue, t.first, t.second, t.moveRoll, t.hitRoll)
  }

  /** The world after a sequence of ticks. */
  function Run(w: World, sc: Screen, ticks: seq<Tick>): World
    decreases |ticks|
  {
    if |ticks| == 0 then w else Run(TickStep(w, sc, ticks[0]), sc, ticks[1..])
  }

  /** No tick in `ticks` presses the restart key. */
  predicate NoRestart(ticks: seq<Tick>)
  {
    forall i :: 0 <= i < |ticks| ==> !ticks[i].keys.restart
  }

  /** Game over is terminal until a restart: a finished game stays exactly
      as it is through any ticks that do not press 'R'. */
  lemma {:induction false} EndedUntilRestart(w: World, sc: Screen, ticks: seq<Tick>)
    requires w.isGameEnded && NoRestart(ticks)
    ensures Run(w, sc, ticks) == w
    decreases |ticks|
  {
    if |ticks| > 0 {
      assert !ticks[0].keys.restart;
      assert TickStep(w, sc, ticks[0]) == w;
      assert NoRestart(ticks[1..]) by {
        forall i | 0 <= i < |ticks[1..]| ensures !ticks[1..][i].keys.restart {
          assert ticks[1..][i] == ticks[i + 1];
        }
      }
      EndedUntilRestart(w, sc, ticks[1..]);
    }
  }

  /** Every tick in `ticks` holds Space down without 'R'. */
  predicate HoldingSpace(ticks: seq<Tick>)
  {
    forall i :: 0 <= i < |ticks| ==> ticks[i].keys.space && !ticks[i].keys.restart
  }

  /** The tail step of the held-Space inductions: dropping the first tick
      keeps Space held without 'R'. */
  lemma HoldingSpaceTail(ticks: seq<Tick>)
    requires |ticks| > 0 && HoldingSpace(ticks)
    ensures HoldingSpace(ticks[1..])
  {
    forall i | 0 <= i < |ticks[1..]|
      ensures ticks[1..][i].keys.space && !ticks[1..][i].keys.restart
    {
      assert ticks[1..][i] == ticks[i + 1];
    }
  }

  /** While Space is held the cooldown never grows, so once it is below
      0.1 s the direction can no longer change, however long the key stays
      down. */
  lemma {:induction false} HeldSpaceCannotToggle(w: World, sc: Screen, ticks: seq<Tick>)
    requires HoldingSpace(ticks) && w.cooldown < CooldownSeconds
    ensures Run(w, sc, ticks).pair.isToLeft == w.pair.isToLeft
    ensures Run(w, sc, ticks).cooldown == w.cooldown
    decreases |ticks|
  {
    if |ticks| > 0 {
      var w1 := TickStep(w, sc, ticks[0]);
      assert w1.pair.isToLeft == w.pair.isToLeft && w1.cooldown == w.cooldown;
      HoldingSpaceTail(ticks);
      HeldSpaceCannotToggle(w1, sc, ticks[1..]);
    }
  }

  /** Holding Space down with the cooldown elapsed in a running game flips
      the direction exactly once, however many ticks the key stays down. */
  lemma HeldSpaceTogglesOnce(w: World, sc: Screen, ticks: seq<Tick>)
    requires |ticks| > 0 && HoldingSpace(ticks)
    requires !w.isGameEnded && w.cooldown >= CooldownSeconds
    ensures Run(w, sc, ticks).pair.isToLeft == !w.pair.isToLeft
    ensures Run(w, sc, ticks).cooldown == 0.0
  {
    var w1 := TickStep(w, sc, ticks[0]);
    assert w1.pair.isToLeft == !w.pair.isToLeft && w1.cooldown == 0.0;
    HoldingSpaceTail(ticks);
    HeldSpaceCannotToggle(w1, sc, ticks[1..]);
  }

  /** The obstacle's velocity is one of the three the respawn hands out. */
  predicate SpawnVelocity(q: Quad)
  {
    (q.dx, q.dy) in {(0, 4), (4, 3), (-4, 3)}
  }

  /** What every reachable world satisfies: the angle stays in its range,
      the obstacle keeps its 30-pixel size and a spawn velocity, and the
      cooldown is never negative. */
  predicate Inv(w: World)
  {
    AngleInRange(w.pair) && w.quad.size == QuadSize && SpawnVelocity(w.quad) && w.cooldown >= 0.0
  }

  /** The game starts in a world that satisfies the invariant. */
  lemma InitializeEstablishesInv(sc: Screen, roll: Roll)
    ensures Inv(Initialize(sc, roll))
  {
  }

  /** One tick keeps the invariant when time does not run backwards. */
  lemma TickPreservesInv(w: World, sc: Screen, t: Tick)
    requires Inv(w) && t.dt >= 0.0
    ensures Inv(TickStep(w, sc, t))
  {
    var a := Act(w, sc, t.keys, t.dt, t.restartSpawn).world;
    assert Inv(a);
    if Renders(a, t.frameDue) {
      AdvancePreservesRange(a.pair);
      assert Inv(Moved(a, sc, t.moveRoll));
    }
  }

  /** Every tick of a run with non-negative elapsed times keeps the
      invariant. */
  lemma {:induction false} RunPreservesInv(w: World, sc: Screen, ticks: seq<Tick>)
    requires Inv(w)
    requires forall i :: 0 <= i < |ticks| ==> ticks[i].dt >= 0.0
    ensures Inv(Run(w, sc, ticks))
    decreases |ticks|
  {
    if |ticks| > 0 {
      TickPreservesInv(w, sc, ticks[0]);
      assert forall i :: 0 <= i < |ticks[1..]| ==> ticks[1..][i].dt >= 0.0 by {
        forall i | 0 <= i < |ticks[1..]| ensures ticks[1..][i].dt >= 0.0 {
          assert ticks[1..][i] == ticks[i + 1];
        }
      }
      RunPreservesInv(TickStep(w, sc, ticks[0]), sc, ticks[1..]);
    }
  }
}

=== FILE: geometry.dfy ===
/** The collision test of the game: a corner-containment check between two
    axis-aligned squares, each given by its top-left corner and side length. */
module Geometry {

  /** The point (px, py) lies in the closed square [cx, cx + cs] x [cy, cy + cs]. */
  predicate CornerInside(px: int, py: int, cx: int, cy: int, cs: int)
  {
    cx <= px <= cx + cs && cy <= py <= cy + cs
  }

  /** The two closed squares share at least one integer point: the true
      overlap test that the game's check approximates. */
  ghost predicate Overlap(fx: int, fy: int, fs: int, sx: int, sy: int, ss: int)
  {
    exists px, py :: CornerInside(px, py, fx, fy, fs) && CornerInside(px, py, sx, sy, ss)
  }

  /** The game's collision test between the first box (fx, fy, fs) and the
      second box (sx, sy, ss): the second box's top-left corner is inside the
      first box, or the first box's top-left corner is inside the second one.
      It is not a full interval-overlap test. */
  function Colliding(fx: int, fy: int, fs: int, sx: int, sy: int, ss: int): (r: bool)
    ensures r <==> (fx <= sx <= fx + fs && fy <= sy <= fy + fs)
                   || (sx <= fx <= sx + ss && sy <= fy <= sy + ss)
  {
    CornerInside(sx, sy, fx, fy, fs) || CornerInside(fx, fy, sx, sy, ss)
  }

  /** Swapping the two boxes does not change the verdict. */
  lemma CollidingSymmetric(fx: int, fy: int, fs: int, sx: int, sy: int, ss: int)
    ensures Colliding(fx, fy, fs, sx, sy, ss) == Colliding(sx, sy, ss, fx, fy, fs)
  {
  }

  /** Two boxes with the same top-left corner always collide when the first
      one has a non-negative size. */
  lemma SameCornerCollides(x: int, y: int, fs: int, ss: int)
    requires fs >= 0
    ensures Colliding(x, y, fs, x, y, ss)
  {
  }

  /** For boxes of non-negative size, a reported collision is a genuine
      overlap of the two closed squares. */
  lemma CollidingImpliesOverlap(fx: int, fy: int, fs: int, sx: int, sy: int, ss: int)
    requires fs >= 0 && ss >= 0
    requires Colliding(fx, fy, fs, sx, sy, ss)
    ensures Overlap(fx, fy, fs, sx, sy, ss)
  {
    if CornerInside(sx, sy, fx, fy, fs) {
      assert CornerInside(sx, sy, fx, fy, fs) && CornerInside(sx, sy, sx, sy, ss);
    } else {
      assert CornerInside(fx, fy, fx, fy, fs) && CornerInside(fx, fy, sx, sy, ss);
    }
  }

  /** The converse fails: two 10-pixel squares crossing each other, where
      neither top-left corner lies in the other square, overlap but are not
      reported as colliding. */
  lemma OverlapWithoutCollision()
    ensures Overlap(0, 0, 10, 5, -5, 10)
    ensures !Colliding(0, 0, 10, 5, -5, 10)
  {
    assert CornerInside(5, 0, 0, 0, 10) && CornerInside(5, 0, 5, -5, 10);
  }
}

=== FILE: obstacle.dfy ===
/** The single moving square obstacle ("quad"): its motion, the off-screen
    test that triggers a respawn, the respawn itself and its drawing.
    The C `rand() & 1` coin flips are explicit boolean inputs. */
module Obstacle {
  import opened Raster

  /** Side of the obstacle square (the member initialiser `size = 30`). */
  const QuadSize: int := 30
  /** Horizontal offset from the screen centre of a vertical spawn. */
  const XRange: int := 80

  /** Position of the top-left corner, side, velocity and lethality. The
      obstacle moves by `dx` to the right and by `dy` upwards each frame. */
  datatype Quad = Quad(x: int, y: int, size: int, dx: int, dy: int, isEnemy: bool)

  /** The obstacle as the program allocates it: every field zero except the
      size. */
  const Blank: Quad := Quad(0, 0, QuadSize, 0, 0, false)

  /** The two coin flips a respawn consumes: the first picks straight-up
      motion over diagonal motion, the second picks the left-hand spawn
      point (left of centre, or just off the left edge). */
  datatype Spawn = Spawn(vertical: bool, fromLeft: bool)

  /** A respawn with a random lethality: the lethality coin, then the spawn
      coins. */
  datatype Roll = Roll(lethal: bool, spawn: Spawn)

  /** The obstacle has left the screen through the top, the left or the
      right; the bottom is not checked. */
  predicate NeedToDestroy(q: Quad, sc: Screen)
    ensures NeedToDestroy(q, sc) <==> q.y < -q.size || q.x < -q.size || q.x > sc.width
    ensures 0 <= q.x <= sc.width && q.size >= 0 && q.y >= 0 ==> !NeedToDestroy(q, sc)
  {
    q.y + q.size < 0 || q.x + q.size < 0 || q.x > sc.width
  }

  /** One frame of motion: right by `dx`, up by `dy`. */
  function Move(q: Quad): (r: Quad)
    ensures r.x - q.x == q.dx && q.y - r.y == q.dy
    ensures r.(x := q.x, y := q.y) == q
  {
    q.(x := q.x + q.dx, y := q.y - q.dy)
  }

  /** Respawns the obstacle at the bottom edge with lethality `isEnemy`.
      A vertical spawn starts 80 pixels left or right of the centre and moves
      straight up at 4 pixels a frame; a diagonal spawn starts just off the
      left edge or on the right edge and moves inwards by 4 and up by 3. */
  function Instantiate(q: Quad, sc: Screen, isEnemy: bool, spawn: Spawn): (r: Quad)
    ensures r.y == sc.height && r.isEnemy == isEnemy && r.size == q.size
    ensures (r.dx, r.dy) in {(0, 4), (4, 3), (-4, 3)}
    ensures r.x in {sc.width / 2 - XRange, sc.width / 2 + XRange, -q.size, sc.width}
    ensures r.dx == -4 <==> !spawn.vertical && r.x == sc.width
    ensures r.dx == 0 <==> spawn.vertical
  {
    var q1 :=
      if spawn.vertical then
        q.(x := sc.width / 2 + (if spawn.fromLeft then -XRange else XRange), dx := 0, dy := 4)
      else
        var x := if spawn.fromLeft then -q.size else sc.width;
        q.(x := x, dx := if x == sc.width then -4 else 4, dy := 3);
    q1.(y := sc.height, isEnemy := isEnemy)
  }

  /** Every one of the four spawn points is reachable, and the coins decide
      which: the choice is visible in the resulting position and velocity on
      any screen. */
  lemma SpawnPoints(q: Quad, sc: Screen, isEnemy: bool)
    requires sc.width >= 0 && q.size > 0
    ensures Instantiate(q, sc, isEnemy, Spawn(true, true)).x == sc.width / 2 - XRange
    ensures Instantiate(q, sc, isEnemy, Spawn(true, false)).x == sc.width / 2 + XRange
    ensures Instantiate(q, sc, isEnemy, Spawn(false, true)).x == -q.size
    ensures Instantiate(q, sc, isEnemy, Spawn(false, false)).x == sc.width
    ensures forall s1: Spawn, s2: Spawn :: Instantiate(q, sc, isEnemy, s1) == Instantiate(q, sc, isEnemy, s2) ==> s1 == s2
  {
    forall s1: Spawn, s2: Spawn | Instantiate(q, sc, isEnemy, s1) == Instantiate(q, sc, isEnemy, s2)
      ensures s1 == s2
    {
      var r1, r2 := Instantiate(q, sc, isEnemy, s1), Instantiate(q, sc, isEnemy, s2);
      assert s1.vertical == s2.vertical by {
        assert (r1.dx == 0) == s1.vertical && (r2.dx == 0) == s2.vertical;
      }
    }
  }

  /** A diagonal spawn always heads into the screen: from the left edge it
      moves right, from the right edge it moves left. */
  lemma DiagonalSpawnMovesInward(q: Quad, sc: Screen, isEnemy: bool, spawn: Spawn)
    requires sc.width > 0 && q.size > 0 && !spawn.vertical
    ensures Instantiate(q, sc, isEnemy, spawn).x < 0 ==> Instantiate(q, sc, isEnemy, spawn).dx > 0
    ensures Instantiate(q, sc, isEnemy, spawn).x >= sc.width ==> Instantiate(q, sc, isEnemy, spawn).dx < 0
  {
  }

  /** A freshly spawned obstacle is never due for destruction, on any screen
      at least 160 pixels wide. */
  lemma InstantiateNotDestroyed(q: Quad, sc: Screen, isEnemy: bool, spawn: Spawn)
    requires sc.width >= 2 * XRange && sc.height >= 0 && q.size >= 0
    ensures !NeedToDestroy(Instantiate(q, sc, isEnemy, spawn), sc)
  {
  }

  /** One frame of the obstacle's own update: move, then respawn with a
      random lethality if it has left the screen. */
  function Advance(q: Quad, sc: Screen, roll: Roll): (r: Quad)
    ensures r.size == q.size
    ensures NeedToDestroy(Move(q), sc) ==> r == Instantiate(Move(q), sc, roll.lethal, roll.spawn)
    ensures NeedToDestroy(Move(q), sc) ==> r.y == sc.height && r.isEnemy == roll.lethal
    ensures !NeedToDestroy(Move(q), sc) ==> r == Move(q)
  {
    var m := Move(q);
    if NeedToDestroy(m, sc) then Instantiate(m, sc, roll.lethal, roll.spawn) else m
  }

  /** After its own update the obstacle is never due for destruction:
      either the move kept it on the screen or it was respawned, on any
      screen at least 160 pixels wide. */
  lemma AdvanceStaysOnScreen(q: Quad, sc: Screen, roll: Roll)
    requires sc.width >= 2 * XRange && sc.height >= 0 && q.size >= 0
    ensures !NeedToDestroy(Advance(q, sc, roll), sc)
  {
    if NeedToDestroy(Move(q), sc) {
      InstantiateNotDestroyed(Move(q), sc, roll.lethal, roll.spawn);
    }
  }

  /** The colour the obstacle is drawn in: red when lethal, white otherwise. */
  function ColorOf(q: Quad): (c: int)
    ensures c == Red <==> q.isEnemy
    ensures c == White <==> !q.isEnemy
  {
    if q.isEnemy then Red else White
  }

  /** The obstacle's draw: advance it, then fill its square in its colour.
      Returns the new obstacle and the new buffer. */
  method Draw(q: Quad, sc: Screen, roll: Roll, buf: Buffer) returns (q': Quad, out: Buffer)
    requires IsRaster(buf, sc)
    ensures q' == Advance(q, sc, roll)
    ensures IsRaster(out, sc)
    ensures forall row, col :: 0 <= row < sc.height && 0 <= col < sc.width ==>
              out[row][col] == (if InSquare(row, col, q'.x, q'.y, q'.size) then ColorOf(q') else buf[row][col])
  {
    q' := Advance(q, sc, roll);
    out := DrawQuad(buf, sc, q'.x, q'.y, q'.size, ColorOf(q'));
  }

  /** The obstacle after `n` frames of motion without respawning. */
  function MoveN(q: Quad, n: nat): Quad
    decreases n
  {
    if n == 0 then q else MoveN(Move(q), n - 1)
  }

  /** `n` frames of motion shift the corner by `n` times the velocity and
      change nothing else. */
  lemma {:induction false} MoveNPosition(q: Quad, n: nat)
    ensures MoveN(q, n) == q.(x := q.x + n * q.dx, y := q.y - n * q.dy)
    decreases n
  {
    if n > 0 {
      MoveNPosition(Move(q), n - 1);
      assert (n - 1) * q.dx + q.dx == n * q.dx;
      assert (n - 1) * q.dy + q.dy == n * q.dy;
    }
  }

  /** Every spawned obstacle leaves the screen: whichever way it was sent,
      after (height + size) / 3 + 1 frames it has passed the top edge. */
  lemma {:induction false} SpawnedObstacleLeaves(q: Quad, sc: Screen, isEnemy: bool, spawn: Spawn)
    requires sc.height >= 0 && q.size >= 0
    ensures NeedToDestroy(MoveN(Instantiate(q, sc, isEnemy, spawn), (sc.height + q.size) / 3 + 1), sc)
    ensures MoveN(Instantiate(q, sc, isEnemy, spawn), (sc.height + q.size) / 3 + 1).y + q.size < 0
  {
    var r := Instantiate(q, sc, isEnemy, spawn);
    var n: nat := (sc.height + q.size) / 3 + 1;
    MoveNPosition(r, n);
    assert r.dy >= 3;
    assert n * r.dy >= n * 3;
    assert n * 3 > sc.height + q.size;
  }
}

=== FILE: orbit.dfy ===
/** The orbiting pair of player circles: its rotation direction and the
    integer angle that advances every frame. The screen positions derived
    from the angle with sin/cos are not part of this module. */
module Orbit {

  /** The pair's state. `isToLeft` is the rotation direction,
      `degreePerFrame` the angle step, `totalDegree` the current angle in
      degrees, `radius` the distance from the screen centre and `size` the
      side of each circle's collision box. */
  datatype Circles = Circles(isToLeft: bool, degreePerFrame: int, totalDegree: int, radius: int, size: int)

  /** The pair the game starts with: turning right, 5 degrees per frame,
      100 pixels from the centre, 30-pixel circles, angle zero. */
  const Initial: Circles := Circles(false, 5, 0, 100, 30)

  /** Reverses the rotation direction and leaves everything else alone. */
  function ChangeDirection(c: Circles): (r: Circles)
    ensures r.isToLeft != c.isToLeft
    ensures r.(isToLeft := c.isToLeft) == c
  {
    c.(isToLeft := !c.isToLeft)
  }

  /** Reversing twice restores the original pair. */
  lemma ChangeDirectionInvolution(c: Circles)
    ensures ChangeDirection(ChangeDirection(c)) == c
  {
  }

  /** The signed step applied to the angle: `+degreePerFrame` when turning
      left, `-degreePerFrame` otherwise. */
  function SignedStep(c: Circles): (r: int)
    ensures c.isToLeft ==> r == c.degreePerFrame
    ensures !c.isToLeft ==> r == -c.degreePerFrame
  {
    if c.isToLeft then c.degreePerFrame else -c.degreePerFrame
  }

  /** Reversing the direction reverses the step: the pair retraces its
      angle at the same speed. */
  lemma ChangeDirectionNegatesStep(c: Circles)
    ensures SignedStep(ChangeDirection(c)) == -SignedStep(c)
  {
  }

  /** The game's angle normalisation: a value above 360 is reduced modulo 360
      (the value is positive there, so C's `%` and Dafny's agree), a negative
      value is reflected to `360 - t`, anything else is kept. */
  function Normalize(t: int): (r: int)
    ensures r >= 0
    ensures t > 360 ==> r < 360 && r % 360 == t % 360
    ensures 0 <= t <= 360 ==> r == t
    ensures t < 0 ==> r + t == 360
  {
    if t > 360 then t % 360
    else if t < 0 then 360 - t
    else t
  }

  /** The reflection is the only way the angle ends up above 360. */
  lemma NormalizeAbove360Iff(t: int)
    ensures Normalize(t) > 360 <==> t < 0
  {
  }

  /** Below zero the rule mirrors the angle instead of wrapping it: the
      result is congruent to `-t`, not to `t`, modulo 360. Turning right by 5
      degrees from 2 degrees gives 363, which is the 3-degree position, where
      wrapping would give 357. */
  lemma NormalizeReflectsNegative(t: int)
    requires t < 0
    ensures (Normalize(t) + t) % 360 == 0
    ensures Normalize(t) % 360 == (-t) % 360
  {
  }

  /** One frame of angle motion (the integer part of compute_location): add
      the signed step, then normalise. Only `totalDegree` changes. */
  function Advance(c: Circles): (r: Circles)
    ensures r.(totalDegree := c.totalDegree) == c
    ensures c.totalDegree + SignedStep(c) > 360 ==> r.totalDegree == (c.totalDegree + SignedStep(c)) % 360
    ensures 0 <= c.totalDegree + SignedStep(c) <= 360 ==> r.totalDegree == c.totalDegree + SignedStep(c)
    ensures c.totalDegree + SignedStep(c) < 0 ==> r.totalDegree == 360 - (c.totalDegree + SignedStep(c))
  {
    c.(totalDegree := Normalize(c.totalDegree + SignedStep(c)))
  }

  /** The angle range the game actually keeps: with a step of at most 360
      degrees, the angle stays within [0, 360 + degreePerFrame]. */
  predicate AngleInRange(c: Circles)
  {
    0 <= c.degreePerFrame <= 360 && 0 <= c.totalDegree <= 360 + c.degreePerFrame
  }

  /** Every frame keeps the angle in range, whichever way the pair turns. */
  lemma AdvancePreservesRange(c: Circles)
    requires AngleInRange(c)
    ensures AngleInRange(Advance(c))
  {
    var t := c.totalDegree + SignedStep(c);
    if t < 0 {
      assert !c.isToLeft && t >= -c.degreePerFrame;
    }
  }

  /** The pair after `n` frames of motion, on its own: the pair's part of
      `n` rendered frames with no direction change in between. The full
      game loop, with toggles, is covered by `Game.RunPreservesInv`. */
  function AdvanceN(c: Circles, n: nat): Circles
    decreases n
  {
    if n == 0 then c else AdvanceN(Advance(c), n - 1)
  }

  /** Any number of frames keeps the angle in range and never touches the
      direction, the step, the radius or the size. */
  lemma {:induction false} AdvanceNPreservesRange(c: Circles, n: nat)
    requires AngleInRange(c)
    ensures AngleInRange(AdvanceN(c, n))
    ensures AdvanceN(c, n).(totalDegree := c.totalDegree) == c
    decreases n
  {
    if n > 0 {
      AdvancePreservesRange(c);
      AdvanceNPreservesRange(Advance(c), n - 1);
    }
  }
}

=== FILE: raster.dfy ===
/** The pixel buffer the game draws into and the clipped square rasteriser.
    The buffer is row-major: `buf[row][col]`, with SCREEN_HEIGHT rows of
    SCREEN_WIDTH packed 32-bit colours each. */
module Raster {

  /** The screen dimensions (SCREEN_WIDTH and SCREEN_HEIGHT of the host). */
  datatype Screen = Screen(width: int, height: int)

  predicate ValidScreen(sc: Screen)
  {
    sc.width > 0 && sc.height > 0
  }

  type Buffer = seq<seq<int>>

  /** Colours, packed as 0x00RRGGBB. `white` is ~0 with the top byte cleared. */
  const Blue: int := 255
  const Green: int := Blue * 0x100
  const Red: int := Green * 0x100
  const White: int := 0xFF_FFFF
  const Black: int := 0

  /** `buf` has exactly `sc.height` rows of `sc.width` cells. */
  predicate IsRaster(buf: Buffer, sc: Screen)
  {
    |buf| == sc.height && forall row :: 0 <= row < |buf| ==> |buf[row]| == sc.width
  }

  /** Cell (row, col) is covered by the square with top-left corner (x, y)
      and side s, i.e. y <= row < y + s and x <= col < x + s. */
  predicate InSquare(row: int, col: int, x: int, y: int, s: int)
  {
    y <= row < y + s && x <= col < x + s
  }

  /** The buffer cleared to black, as the frame does before drawing. */
  function Clear(sc: Screen): (buf: Buffer)
    requires ValidScreen(sc)
    ensures IsRaster(buf, sc)
    ensures forall row, col :: 0 <= row < sc.height && 0 <= col < sc.width ==> buf[row][col] == Black
  {
    seq(sc.height, _ => seq(sc.width, _ => Black))
  }

  /** Fills the square [y, y + s) x [x, x + s) with `color`, one cell at a
      time in the order the game's nested loops visit them, skipping every
      cell that lies off the screen. */
  method DrawQuad(buf: Buffer, sc: Screen, x: int, y: int, s: int, color: int) returns (out: Buffer)
    requires IsRaster(buf, sc)
    ensures IsRaster(out, sc)
    ensures forall row, col :: 0 <= row < sc.height && 0 <= col < sc.width ==>
              out[row][col] == (if InSquare(row, col, x, y, s) then color else buf[row][col])
  {
    out := buf;
    var yy := y;
    while yy < y + s
      invariant yy == y || y <= yy <= y + s
      invariant IsRaster(out, sc)
      invariant forall row, col :: 0 <= row < sc.height && 0 <= col < sc.width ==>
                  out[row][col] == (if y <= row < yy && x <= col < x + s then color else buf[row][col])
      decreases y + s - yy
    {
      var xx := x;
      while xx < x + s
        invariant x <= xx <= x + s
        invariant IsRaster(out, sc)
        invariant forall row, col :: 0 <= row < sc.height && 0 <= col < sc.width ==>
                    out[row][col] == (if (y <= row < yy && x <= col < x + s) || (row == yy && x <= col < xx)
                                      then color else buf[row][col])
        decreases x + s - xx
      {
        if !(yy < 0 || yy >= sc.height || xx < 0 || xx >= sc.width) {
          out := out[yy := out[yy][xx := color]];
        }
        xx := xx + 1;
      }
      yy := yy + 1;
    }
  }
}
